=== FILE: README.md ===
# Custom frame transfer over a UCX endpoint

This project models the small self-describing protocol that the `UCX`
helper class of `python/ucxx/_lib_async/tests/test_custom_send_recv.py`
uses to move one serialized object (a header blob plus a list of host or
device buffers) over a single endpoint, and proves its properties.

- **Writer** (`UCX.write`, module `Writer`): frame 0 is the pickled header,
  followed by the serializer's frames. The writer sends a one-element
  `uint64` count, then one `bool` per frame (device or host), then one
  `uint64` byte size per frame. After that it sends the bytes of every
  frame whose size is non-zero, in index order.
- **Reader** (`UCX.read`, module `Reader`): it receives the count, then a
  flag buffer and a size buffer sized from that count. Then it walks the
  frames in order. A size-0 frame is synthesised empty, in the flagged
  memory kind, without a receive. Any other frame is received into a
  buffer of exactly its size and memory kind. If the endpoint is canceled
  or closed during the three preamble receives, the read fails with an
  `Aborted` error and posts no frame receive.

The wire is modelled at byte level (module `Bytes`). A `uint64` is eight
little-endian bytes. A `bool` is one byte, written as 0 or 1 and read back
as "non-zero". The endpoint (module `Transport`) is an ordered queue of
messages from writer to reader, followed by the state the endpoint ends
in: still open, closed, or canceled. A receive posts a buffer of a fixed
size. The model assumes that the message at the head of the queue completes
it only when the sizes are equal, and that any other receive fails with a
truncation error. The transport itself raises truncation only for a
message longer than the buffer and may complete a shorter one with a
partial fill; every message the writer sends matches the reader's buffer
exactly, so the round trip and interruption results do not depend on
this assumption. On an exhausted queue the receive fails with the
endpoint's closed or canceled error. On an open endpoint it never
completes, which the model reports as `Stalled`. The reader records every
receive it posts (`Reader.Posted`), so the order of receives can be stated.

Module `Protocol` composes the two halves. Its main results:
- Round trip: the reader returns exactly the writer's frame list and
  consumes every message.
- The receives the reader posts mirror the writer's sends one for one.
- An endpoint that ends part-way through the transfer makes the read fail:
  as `Aborted` inside the preamble, with the transport error unchanged
  inside the payloads.

On a preamble cancel or close, line 78 of the test calls the caught
exception instance (`raise e(msg)`). The read fails and returns no frame
list. The model returns `Aborted(cause)`, which keeps the original cause;
neither the exact Python exception nor its message is modelled.

## Model

| member | source | states |
|---|---|---|
| Writer.Write | python/ucxx/_lib_async/tests/test_custom_send_recv.py:46-62 | the writer finishes iff count and sizes fit in `uint64`; then it sends `3 + #non-empty frames` messages: the count decoding to `len(frames)`, flags decoding to each frame's device flag, sizes decoding to each frame's byte count, then exactly the payloads of the non-empty frames, none of them empty; on an overflow of the count nothing was sent, on an overflow of a size exactly the count and flag messages were sent |
| Writer.CountMessage | python/ucxx/_lib_async/tests/test_custom_send_recv.py:51 | the count message is one 8-byte `uint64` element that decodes to the frame count |
| Writer.FlagMessage | python/ucxx/_lib_async/tests/test_custom_send_recv.py:52-57 | the flag message has one byte per frame and decodes to each frame's device flag |
| Writer.SizeMessage | python/ucxx/_lib_async/tests/test_custom_send_recv.py:58 | the size message has 8 bytes per frame and decodes to each frame's byte count |
| Frames.Payloads | python/ucxx/_lib_async/tests/test_custom_send_recv.py:60-62 | at most one payload per frame, and no payload is empty |
| Frames.PayloadsAppend | python/ucxx/_lib_async/tests/test_custom_send_recv.py:60-62 | payloads keep index order: those of a concatenation are the concatenation of each part's payloads |
| Frames.PayloadsCount | python/ucxx/_lib_async/tests/test_custom_send_recv.py:60-62 | the number of payloads equals the number of frame indices with non-zero size |
| Frames.HeaderFrame | python/ucxx/_lib_async/tests/test_custom_send_recv.py:48 | the header frame carries the pickled header bytes and is not flagged as device memory |
| Frames.KindOf | python/ucxx/_lib_async/tests/test_custom_send_recv.py:84-94 | the reader allocates device memory exactly when the frame's flag is set |
| Frames.Unpack | python/ucxx/_lib_async/tests/test_custom_send_recv.py:116-117 | splitting the received list succeeds exactly when it is non-empty, and leaves one frame fewer for the body |
| Frames.UnpackFrameList | python/ucxx/_lib_async/tests/test_custom_send_recv.py:47-48 | splitting the writer's full frame list gives back the header blob and the serializer's frames |
| Bytes.U64RoundTrip | python/ucxx/_lib_async/tests/test_custom_send_recv.py:51 | a value below 2^64 survives encoding into and decoding from one `uint64` element |
| Bytes.U64Canonical | python/ucxx/_lib_async/tests/test_custom_send_recv.py:67-68 | every 8-byte buffer received into the count is the encoding of the value it decodes to |
| Bytes.ToLEFromLE | python/ucxx/_lib_async/tests/test_custom_send_recv.py:67-68 | a little-endian byte string is the encoding, at its own width, of the value it decodes to |
| Bytes.U64sRoundTrip | python/ucxx/_lib_async/tests/test_custom_send_recv.py:58 | an array of values below 2^64 survives encoding into and decoding from a `uint64` array |
| Bytes.U64sCanonical | python/ucxx/_lib_async/tests/test_custom_send_recv.py:71-72 | every buffer of a multiple of 8 bytes received into the size array is the encoding of the sizes it decodes to |
| Bytes.FlagsRoundTrip | python/ucxx/_lib_async/tests/test_custom_send_recv.py:52-57 | device flags survive encoding into and decoding from a `bool` array |
| Bytes.FlagsCanonical | python/ucxx/_lib_async/tests/test_custom_send_recv.py:69-70 | re-encoding a received flag buffer gives it back exactly when every byte is 0 or 1 |
| Transport.Recv | python/ucxx/_lib_async/tests/test_custom_send_recv.py:88 | under the model's exact-size assumption, a receive completes iff the head message has exactly the buffer's size, and then consumes only that message; otherwise it reports truncation or the endpoint's end state |
| Transport.EndError | python/ucxx/_lib_async/tests/test_custom_send_recv.py:73-76 | an exhausted endpoint reports the canceled error iff it was canceled and the closed error iff it was closed |
| Reader.ReadPreamble | python/ucxx/_lib_async/tests/test_custom_send_recv.py:66-72 | at most three receives, all preamble ones, the first of 8 bytes; it succeeds exactly when the stream starts with an 8-byte count `n`, a message of `n` bytes and one of `8n` bytes; then it posts buffers of 8, `n` and `8n` bytes, returns the flags and sizes decoded from the second and third messages, and consumes exactly those three messages |
| Reader.PreambleFailure | python/ucxx/_lib_async/tests/test_custom_send_recv.py:73-78 | a preamble failure keeps its cause and is tagged `Aborted` exactly when the cause is a cancel or a close |
| Reader.FrameRecvs | python/ucxx/_lib_async/tests/test_custom_send_recv.py:83-88 | the frame receives are at most one per frame and every one has a non-zero size |
| Reader.ReadFrames | python/ucxx/_lib_async/tests/test_custom_send_recv.py:80-95 | the receives posted are a prefix of one receive per non-zero size, in order, of the flagged kind, so no size-0 frame is ever received, even when the loop fails; any failure is passed on untagged, and a successful loop returns one frame per announced size |
| Reader.ReadFramesResult | python/ucxx/_lib_async/tests/test_custom_send_recv.py:80-95 | on success the frame loop returns one frame per announced size, in order, each with the flagged memory kind and the announced byte count; it posts receives exactly for the non-zero sizes, the non-empty frames' bytes are exactly the messages it consumed, and the rest of the stream is left unread |
| Reader.Read | python/ucxx/_lib_async/tests/test_custom_send_recv.py:64-95 | the first three receives are preamble ones and every later one is a frame receive; a stream without a well-sized preamble makes the read fail after at most three receives; an `Aborted` read posted only preamble receives and was caused by a cancel or close; whenever the stream holds a well-sized preamble, succeeding or not, the flag and size buffers are sized from the received count and the later receives are a prefix of one receive per non-zero received size; on success the flag and size receives are sized from the count and exactly that many frames are returned |
| Reader.ReadFollowsPreamble | python/ucxx/_lib_async/tests/test_custom_send_recv.py:79-95 | on success the stream had a well-sized preamble; frame i has the memory kind of received flag i and the byte count of received size i, the frame receives posted are exactly those for the non-zero received sizes, the non-empty frames' bytes are the messages received after the preamble, in order, and nothing after them is consumed |
| Protocol.FrameRecvsMatchPayloads | python/ucxx/_lib_async/tests/test_custom_send_recv.py:60-88 | the j-th payload the writer sends is the bytes of the j-th non-empty frame, and the j-th frame receive the reader posts has that frame's size and memory kind |
| Protocol.ReadFramesRoundTrip | python/ucxx/_lib_async/tests/test_custom_send_recv.py:80-95 | reading the payloads of any frame list with its flags and sizes returns that list, empty frames and memory kinds included, and leaves the following messages unread |
| Protocol.RoundTrip | python/ucxx/_lib_async/tests/test_custom_send_recv.py:115-123 | for every representable frame list and every end state, reading what the writer sent returns exactly the header frame followed by the body and consumes every message |
| Protocol.ReadOfWrite | python/ucxx/_lib_async/tests/test_custom_send_recv.py:115 | reading everything a finished write sent posts the three preamble receives and then one frame receive per non-empty frame, and returns the writer's frame list with the stream left empty |
| Protocol.PreambleDecodes | python/ucxx/_lib_async/tests/test_custom_send_recv.py:51-58 | the first three sent messages have 8, `n` and `8n` bytes and the first decodes to `n = len(frames)` |
| Protocol.CountDecodes | python/ucxx/_lib_async/tests/test_custom_send_recv.py:67-68 | the count message decodes, as the reader's one-element `uint64` buffer, to the count the writer sent |
| Protocol.ReceivesMirrorSends | python/ucxx/_lib_async/tests/test_custom_send_recv.py:51-88 | the reader posts exactly as many receives as the writer sends, the i-th of the size of the i-th send; after the preamble, send i is the bytes of the (i-3)-th non-empty frame and receive i uses that frame's memory kind |
| Protocol.TransferRecoversObject | python/ucxx/_lib_async/tests/test_custom_send_recv.py:115-119 | after a transfer, the caller's split of the received list gives back the original header blob and frames |
| Protocol.ReadFramesCut | python/ucxx/_lib_async/tests/test_custom_send_recv.py:88 | if the stream ends before the last payload, reading the frames fails with the endpoint's end error, untagged |
| Protocol.Interrupted | python/ucxx/_lib_async/tests/test_custom_send_recv.py:65-95 | an endpoint that ends after `k` of the writer's messages makes the read fail with its end error; inside the preamble (`k < 3`) after exactly `k + 1` preamble receives, tagged `Aborted` when canceled or closed; inside the payloads untagged |
| Protocol.InterruptedInPreamble | python/ucxx/_lib_async/tests/test_custom_send_recv.py:65-78 | an endpoint that ends after fewer than three of the writer's messages makes the read fail, with the cancel or close re-tagged as `Aborted`, after exactly one receive more than the messages it got |
| Protocol.InterruptedInPayloads | python/ucxx/_lib_async/tests/test_custom_send_recv.py:80-88 | an endpoint that ends after the preamble but before the last payload makes the read fail with its end error, untagged |
| Protocol.SkipsEmptyFrame | python/ucxx/_lib_async/tests/test_custom_send_recv.py:50-62 | an 11-byte header with host frames of 0 and 2048 bytes is sent as count 3, flags all false, sizes `[11, 0, 2048]`, then only the header and the 2048-byte frame |

## Left out

- Object serialization: `cdf.serialize`, `typ.deserialize`, `pickle` and the cudf objects of the test inputs are external libraries. The header is an opaque byte string and the body frames are given.
- Buffer allocation: numpy and numba device arrays become a `Frame` of bytes plus a memory kind. The Python type of the result is not kept apart (`b""` versus a numpy array for host frames). Allocation failure, such as a huge announced count, is not modelled.
- `distributed.utils.nbytes` is modelled as the frame's byte length.
- Listener and endpoint setup, the `asyncio.gather` concurrency, and endpoint close and `wait_listener_client_handlers` are network I/O and orchestration. The transport is an ordered queue of the writer's messages.
- Send failures on the writer side are not modelled. The writer fails only where numpy cannot store a value in a `uint64`.
- Reader.PreambleFailure: the exception raised at line 78 is not modelled. That line calls the caught exception instance. The model keeps only "the read fails, tagged `Aborted`, with the original cause".
- Transport.Recv: on an open endpoint with no message left, the source waits forever. The model returns `Stalled` in that case. A message shorter than the posted buffer is modelled as a failure; the transport may instead complete it with a partial fill. The reader's "succeeds iff the stream holds a well-sized preamble" results rely on this exact-size assumption.
- Bytes.DecodeU64: host byte order is taken as little-endian.
- Frames.Unpack: `pickle.loads` of a device-resident frame 0 is not modelled. The split takes frame 0's bytes whatever its memory kind.

=== FILE: bytes.dfy ===
/**
 * The byte-level layout of the preamble arrays: unsigned 64-bit integers
 * (numpy `uint64`, little-endian as on the hosts the library targets) and
 * booleans (numpy `bool`, one byte each).
 */
module Bytes {

  type byte = x: int | 0 <= x < 256
  type Bytes = seq<byte>

  /** Width in bytes of one `uint64` array element. */
  const U64_WIDTH: nat := 8
  /** First value a `uint64` cannot hold. */
  const U64_LIMIT: nat := 0x1_0000_0000_0000_0000

  function Pow256(width: nat): (p: nat)
    ensures p >= 1
  {
    if width == 0 then 1 else 256 * Pow256(width - 1)
  }

  lemma U64LimitIsPow256()
    ensures Pow256(U64_WIDTH) == U64_LIMIT
  {
  }

  /** The value of a little-endian unsigned integer. */
  function FromLE(bs: Bytes): (x: nat)
    ensures x < Pow256(|bs|)
  {
    if |bs| == 0 then 0
    else
      var rest := FromLE(bs[1..]);
      assert rest <= Pow256(|bs| - 1) - 1;
      assert 256 * rest <= 256 * Pow256(|bs| - 1) - 256;
      bs[0] + 256 * rest
  }

  /** The `width`-byte little-endian representation of `x`. */
  function ToLE(x: nat, width: nat): (bs: Bytes)
    requires x < Pow256(width)
    ensures |bs| == width
    ensures FromLE(bs) == x
  {
    if width == 0 then []
    else
      assert x / 256 < Pow256(width - 1);
      var bs := [x % 256] + ToLE(x / 256, width - 1);
      assert bs[1..] == ToLE(x / 256, width - 1);
      bs
  }

  /** Little-endian representations are unique: decoding loses nothing. */
  lemma {:induction false} ToLEFromLE(bs: Bytes)
    ensures ToLE(FromLE(bs), |bs|) == bs
  {
    if |bs| > 0 {
      var x := FromLE(bs);
      assert x % 256 == bs[0];
      assert x / 256 == FromLE(bs[1..]);
      ToLEFromLE(bs[1..]);
    }
  }

  /** One `uint64` element as stored in a numpy array. */
  function EncodeU64(x: nat): (bs: Bytes)
    requires x < U64_LIMIT
    ensures |bs| == U64_WIDTH
  {
    U64LimitIsPow256();
    ToLE(x, U64_WIDTH)
  }

  function DecodeU64(bs: Bytes): (x: nat)
    requires |bs| == U64_WIDTH
    ensures x < U64_LIMIT
  {
    U64LimitIsPow256();
    FromLE(bs)
  }

  lemma U64RoundTrip(x: nat)
    requires x < U64_LIMIT
    ensures DecodeU64(EncodeU64(x)) == x
  {
  }

  lemma U64Canonical(bs: Bytes)
    requires |bs| == U64_WIDTH
    ensures EncodeU64(DecodeU64(bs)) == bs
  {
    ToLEFromLE(bs);
  }

  predicate AllU64(xs: seq<nat>) {
    forall i :: 0 <= i < |xs| ==> xs[i] < U64_LIMIT
  }

  /** The raw contents of a numpy `uint64` array holding `xs`. */
  function EncodeU64s(xs: seq<nat>): (bs: Bytes)
    requires AllU64(xs)
    ensures |bs| == U64_WIDTH * |xs|
  {
    if |xs| == 0 then [] else EncodeU64(xs[0]) + EncodeU64s(xs[1..])
  }

  /** The elements of a numpy `uint64` array whose raw contents are `bs`. */
  function DecodeU64s(bs: Bytes): (xs: seq<nat>)
    requires |bs| % U64_WIDTH == 0
    ensures U64_WIDTH * |xs| == |bs|
    ensures AllU64(xs)
  {
    if |bs| == 0 then []
    else [DecodeU64(bs[..U64_WIDTH])] + DecodeU64s(bs[U64_WIDTH..])
  }

  lemma {:induction false} U64sRoundTrip(xs: seq<nat>)
    requires AllU64(xs)
    ensures DecodeU64s(EncodeU64s(xs)) == xs
  {
    if |xs| > 0 {
      var bs := EncodeU64s(xs);
      assert bs[..U64_WIDTH] == EncodeU64(xs[0]);
      assert bs[U64_WIDTH..] == EncodeU64s(xs[1..]);
      U64RoundTrip(xs[0]);
      U64sRoundTrip(xs[1..]);
    }
  }

  lemma {:induction false} U64sCanonical(bs: Bytes)
    requires |bs| % U64_WIDTH == 0
    ensures EncodeU64s(DecodeU64s(bs)) == bs
  {
    if |bs| > 0 {
      var xs := DecodeU64s(bs);
      assert xs[1..] == DecodeU64s(bs[U64_WIDTH..]);
      U64Canonical(bs[..U64_WIDTH]);
      U64sCanonical(bs[U64_WIDTH..]);
      assert bs == bs[..U64_WIDTH] + bs[U64_WIDTH..];
    }
  }

  /** The raw contents of a numpy `bool` array: one byte per flag, 1 for true. */
  function EncodeFlags(flags: seq<bool>): (bs: Bytes)
    ensures |bs| == |flags|
  {
    seq(|flags|, i requires 0 <= i < |flags| => if flags[i] then 1 else 0)
  }

  /** Reading a numpy `bool` array back: any non-zero byte is true. */
  function DecodeFlags(bs: Bytes): (flags: seq<bool>)
    ensures |flags| == |bs|
  {
    seq(|bs|, i requires 0 <= i < |bs| => bs[i] != 0)
  }

  lemma FlagsRoundTrip(flags: seq<bool>)
    ensures DecodeFlags(EncodeFlags(flags)) == flags
  {
  }

  /** Decoding and re-encoding a flag buffer is the identity exactly on 0/1 bytes. */
  lemma FlagsCanonical(bs: Bytes)
    ensures EncodeFlags(DecodeFlags(bs)) == bs <==> forall i :: 0 <= i < |bs| ==> bs[i] <= 1
  {
    if forall i :: 0 <= i < |bs| ==> bs[i] <= 1 {
      assert forall i :: 0 <= i < |bs| ==> EncodeFlags(DecodeFlags(bs))[i] == bs[i];
    } else {
      var i :| 0 <= i < |bs| && bs[i] > 1;
      assert EncodeFlags(DecodeFlags(bs))[i] != bs[i];
    }
  }
}

=== FILE: frames.dfy ===
/** Frames: the buffers one serialized object is split into. */
module Frames {
  import opened Bytes
  import opened Results

  /** Where a buffer lives: host memory or device (GPU) memory. */
  datatype MemoryKind = Host | Device

  /** One contiguous buffer; its byte count is the length of `data`. */
  datatype Frame = Frame(data: Bytes, kind: MemoryKind)

  /** The writer's `nbytes(frame)`. */
  function NBytes(f: Frame): nat {
    |f.data|
  }

  /** The writer's per-frame flag: does the buffer expose a device array interface? */
  predicate OnDevice(f: Frame) {
    f.kind == Device
  }

  /** The reader's choice of allocator for a received flag. */
  function KindOf(onDevice: bool): (k: MemoryKind)
    ensures k == Device <==> onDevice
  {
    if onDevice then Device else Host
  }

  /** The pickled header travels as a host byte string. */
  function HeaderFrame(header: Bytes): (f: Frame)
    ensures f.data == header && !OnDevice(f)
  {
    Frame(header, Host)
  }

  /** The full frame list of one transfer: the header blob, then the serializer's frames. */
  function FrameList(header: Bytes, body: seq<Frame>): seq<Frame> {
    [HeaderFrame(header)] + body
  }

  /** The per-frame memory flags of the preamble. */
  function Flags(frames: seq<Frame>): (flags: seq<bool>)
    ensures |flags| == |frames|
  {
    seq(|frames|, i requires 0 <= i < |frames| => OnDevice(frames[i]))
  }

  /** The per-frame byte sizes of the preamble. */
  function Sizes(frames: seq<Frame>): (sizes: seq<nat>)
    ensures |sizes| == |frames|
  {
    seq(|frames|, i requires 0 <= i < |frames| => NBytes(frames[i]))
  }

  /** The payload messages: the bytes of every non-empty frame, in index order. */
  function Payloads(frames: seq<Frame>): (ps: seq<Bytes>)
    ensures |ps| <= |frames|
    ensures forall j :: 0 <= j < |ps| ==> |ps[j]| > 0
  {
    if |frames| == 0 then []
    else if NBytes(frames[0]) > 0 then [frames[0].data] + Payloads(frames[1..])
    else Payloads(frames[1..])
  }

  /** The frames with at least one byte, in index order. */
  function NonEmpty(frames: seq<Frame>): (fs: seq<Frame>)
    ensures |fs| <= |frames|
    ensures forall j :: 0 <= j < |fs| ==> NBytes(fs[j]) > 0
  {
    if |frames| == 0 then []
    else if NBytes(frames[0]) > 0 then [frames[0]] + NonEmpty(frames[1..])
    else NonEmpty(frames[1..])
  }

  /** The number of frames with at least one byte. */
  function NonEmptyCount(frames: seq<Frame>): nat {
    |set i | 0 <= i < |frames| && NBytes(frames[i]) > 0|
  }

  /** Every value the preamble carries fits in a `uint64`. */
  predicate Representable(frames: seq<Frame>) {
    && |frames| < U64_LIMIT
    && forall i :: 0 <= i < |frames| ==> NBytes(frames[i]) < U64_LIMIT
  }

  /** How the reader's caller splits the received list: `frames[0]` is the header. */
  datatype SplitError = NoHeaderFrame

  function Unpack(frames: seq<Frame>): (r: Result<(Bytes, seq<Frame>), SplitError>)
    ensures r.Success? <==> |frames| > 0
    ensures r.Success? ==> |r.value.1| == |frames| - 1
  {
    if |frames| == 0 then Failure(NoHeaderFrame)
    else Success((frames[0].data, frames[1..]))
  }

  /** Splitting the full frame list gives back the header blob and the serializer's frames. */
  lemma UnpackFrameList(header: Bytes, body: seq<Frame>)
    ensures Unpack(FrameList(header, body)) == Success((header, body))
  {
    assert FrameList(header, body)[1..] == body;
  }

  /** Payloads keep index order: the payloads of a concatenation are concatenated. */
  lemma {:induction false} PayloadsAppend(a: seq<Frame>, b: seq<Frame>)
    ensures Payloads(a + b) == Payloads(a) + Payloads(b)
  {
    if |a| > 0 {
      assert (a + b)[1..] == a[1..] + b;
      PayloadsAppend(a[1..], b);
    } else {
      assert a + b == b;
    }
  }

  /** Exactly one payload per non-empty frame. */
  lemma {:induction false} PayloadsCount(frames: seq<Frame>)
    ensures |Payloads(frames)| == NonEmptyCount(frames)
    decreases |frames|
  {
    if |frames| > 0 {
      var n := |frames| - 1;
      var init := frames[..n];
      PayloadsCount(init);
      PayloadsAppend(init, [frames[n]]);
      assert init + [frames[n]] == frames;
      assert [frames[n]][1..] == [];
      var A := set i | 0 <= i < |init| && NBytes(init[i]) > 0;
      var B := set i | 0 <= i < |frames| && NBytes(frames[i]) > 0;
      if NBytes(frames[n]) > 0 {
        assert B == A + {n};
        assert n !in A;
      } else {
        assert B == A;
      }
    }
  }
}

=== FILE: protocol.dfy ===
/**
 * The writer and the reader composed over one endpoint: what the reader
 * returns for the messages the writer sent.
 */
module Protocol {
  import opened Results
  import opened Bytes
  import opened Frames
  import opened Transport
  import opened Writer
  import opened Reader

  /**
   * The reader posts one frame receive per payload the writer sends: the
   * j-th non-empty frame is sent as its bytes and received into a buffer of
   * its size and memory kind.
   */
  lemma {:induction false} FrameRecvsMatchPayloads(frames: seq<Frame>)
    ensures var ps, ne := FrameRecvs(Flags(frames), Sizes(frames)), NonEmpty(frames);
      && |ps| == |Payloads(frames)| == |ne|
      && forall j :: 0 <= j < |ps| ==>
           && Payloads(frames)[j] == ne[j].data
           && ps[j] == FrameRecv(NBytes(ne[j]), ne[j].kind)
  {
    if |frames| > 0 {
      var f := frames[0];
      assert Flags(frames)[1..] == Flags(frames[1..]);
      assert Sizes(frames)[1..] == Sizes(frames[1..]);
      assert KindOf(OnDevice(f)) == f.kind;
      FrameRecvsMatchPayloads(frames[1..]);
    }
  }

  /** One step of the frame loop over a frame of size 0: nothing is received. */
  lemma ReadFramesSkip(flags: seq<bool>, sizes: seq<nat>, s: Stream)
    requires |flags| == |sizes| > 0 && sizes[0] == 0
    requires ReadFrames(flags[1..], sizes[1..], s).outcome.Success?
    ensures var tail := ReadFrames(flags[1..], sizes[1..], s);
      ReadFrames(flags, sizes, s)
        == Reading(tail.posted, Success(Received([Frame([], KindOf(flags[0]))] + tail.outcome.value.frames,
                                                 tail.outcome.value.rest)))
  {
  }

  /** One step of the frame loop over a non-empty frame: the head message fills it. */
  lemma ReadFramesFill(flags: seq<bool>, sizes: seq<nat>, m: Bytes, queue: seq<Bytes>, end: End)
    requires |flags| == |sizes| > 0 && sizes[0] > 0 && |m| == sizes[0]
    requires ReadFrames(flags[1..], sizes[1..], Stream(queue, end)).outcome.Success?
    ensures var tail := ReadFrames(flags[1..], sizes[1..], Stream(queue, end));
      var kind := KindOf(flags[0]);
      ReadFrames(flags, sizes, Stream([m] + queue, end))
        == Reading([FrameRecv(sizes[0], kind)] + tail.posted,
                   Success(Received([Frame(m, kind)] + tail.outcome.value.frames, tail.outcome.value.rest)))
  {
    var s := Stream([m] + queue, end);
    assert s.queue[1..] == queue;
    assert Recv(s, sizes[0]) == Success(Delivered(m, Stream(queue, end)));
  }

  /** The frame loop, given the flags and sizes of `frames`, reads their payloads back as `frames`. */
  ghost predicate ReadsBack(frames: seq<Frame>, rest: seq<Bytes>, end: End) {
    ReadFrames(Flags(frames), Sizes(frames), Stream(Payloads(frames) + rest, end))
      == Reading(FrameRecvs(Flags(frames), Sizes(frames)), Success(Received(frames, Stream(rest, end))))
  }

  lemma ReadsBackFill(frames: seq<Frame>, rest: seq<Bytes>, end: End)
    requires |frames| > 0 && NBytes(frames[0]) > 0
    requires ReadsBack(frames[1..], rest, end)
    ensures ReadsBack(frames, rest, end)
  {
    var f, tl := frames[0], frames[1..];
    var flags, sizes := Flags(frames), Sizes(frames);
    assert flags[1..] == Flags(tl);
    assert sizes[1..] == Sizes(tl);
    assert Frame(f.data, KindOf(flags[0])) == f;
    assert [f] + tl == frames;
    assert Payloads(frames) + rest == [f.data] + (Payloads(tl) + rest);
    ReadFramesFill(flags, sizes, f.data, Payloads(tl) + rest, end);
  }

  lemma ReadsBackSkip(frames: seq<Frame>, rest: seq<Bytes>, end: End)
    requires |frames| > 0 && NBytes(frames[0]) == 0
    requires ReadsBack(frames[1..], rest, end)
    ensures ReadsBack(frames, rest, end)
  {
    var f, tl := frames[0], frames[1..];
    var flags, sizes := Flags(frames), Sizes(frames);
    assert flags[1..] == Flags(tl);
    assert sizes[1..] == Sizes(tl);
    assert Frame([], KindOf(flags[0])) == f;
    assert [f] + tl == frames;
    assert Payloads(frames) == Payloads(tl);
    ReadFramesSkip(flags, sizes, Stream(Payloads(frames) + rest, end));
  }

  /** Reading the payloads of `frames` back with their flags and sizes gives `frames`. */
  lemma {:induction false} ReadFramesRoundTrip(frames: seq<Frame>, rest: seq<Bytes>, end: End)
    ensures ReadFrames(Flags(frames), Sizes(frames), Stream(Payloads(frames) + rest, end))
         == Reading(FrameRecvs(Flags(frames), Sizes(frames)), Success(Received(frames, Stream(rest, end))))
  {
    if |frames| == 0 {
      assert Payloads(frames) + rest == rest;
      assert |Sizes(frames)| == 0;
    } else {
      ReadFramesRoundTrip(frames[1..], rest, end);
      if NBytes(frames[0]) > 0 {
        ReadsBackFill(frames, rest, end);
      } else {
        ReadsBackSkip(frames, rest, end);
      }
    }
  }

  /** What the reader does with everything a finished write sent. */
  lemma ReadOfWrite(header: Bytes, body: seq<Frame>, end: End)
    requires Representable(FrameList(header, body))
    ensures var frames := FrameList(header, body);
      var n := |frames|;
      Read(Stream(Write(header, body).sent, end))
        == Reading([PreambleRecv(U64_WIDTH), PreambleRecv(n), PreambleRecv(U64_WIDTH * n)]
                     + FrameRecvs(Flags(frames), Sizes(frames)),
                   Success(Received(frames, Stream([], end))))
  {
    var frames := FrameList(header, body);
    var n := |frames|;
    var sent := Write(header, body).sent;
    var s := Stream(sent, end);
    WriteSends(header, body);
    CountDecodes(n);
    assert HasPreamble(s);
    assert Announced(s) == Preamble(Flags(frames), Sizes(frames));
    assert sent[3..] == Payloads(frames) + [];
    ReadFramesRoundTrip(frames, [], end);
  }

  /**
   * Round trip: whatever the endpoint does after the last message, the reader
   * returns exactly the writer's frame list (header first, then the body, with
   * contents, sizes and memory kinds intact) and consumes every message.
   */
  lemma RoundTrip(header: Bytes, body: seq<Frame>, end: End)
    requires Representable(FrameList(header, body))
    ensures var r := Read(Stream(Write(header, body).sent, end));
      r.outcome == Success(Received(FrameList(header, body), Stream([], end)))
  {
    ReadOfWrite(header, body, end);
  }

  /** The preamble the writer sends decodes to the frame list's count, flags and sizes. */
  lemma PreambleDecodes(header: Bytes, body: seq<Frame>)
    requires Representable(FrameList(header, body))
    ensures var frames := FrameList(header, body);
      var sent := Write(header, body).sent;
      && |sent| >= 3
      && |sent[0]| == U64_WIDTH
      && DecodeU64(sent[0]) == |frames|
      && |sent[1]| == |frames|
      && |sent[2]| == U64_WIDTH * |frames|
  {
    WriteSends(header, body);
    CountDecodes(|FrameList(header, body)|);
  }

  /**
   * Every receive the reader posts is matched by the send at the same
   * position, byte for byte in size, and a frame receive uses the memory
   * kind of the frame whose bytes were sent.
   */
  lemma ReceivesMirrorSends(header: Bytes, body: seq<Frame>, end: End)
    requires Representable(FrameList(header, body))
    ensures var sent := Write(header, body).sent;
      var posted := Read(Stream(sent, end)).posted;
      && |posted| == |sent|
      && (forall i :: 0 <= i < |sent| ==> posted[i].size == |sent[i]|)
      && |NonEmpty(FrameList(header, body))| == |sent| - 3
      && forall i :: 3 <= i < |sent| ==>
           && sent[i] == NonEmpty(FrameList(header, body))[i - 3].data
           && posted[i] == FrameRecv(|sent[i]|, NonEmpty(FrameList(header, body))[i - 3].kind)
  {
    var frames := FrameList(header, body);
    var n := |frames|;
    var sent := Write(header, body).sent;
    var posted := Read(Stream(sent, end)).posted;
    var ps, ne, pl := FrameRecvs(Flags(frames), Sizes(frames)), NonEmpty(frames), Payloads(frames);
    WriteSends(header, body);
    ReadOfWrite(header, body, end);
    FrameRecvsMatchPayloads(frames);
    assert posted == [PreambleRecv(U64_WIDTH), PreambleRecv(n), PreambleRecv(U64_WIDTH * n)] + ps;
    forall i | 3 <= i < |sent|
      ensures sent[i] == ne[i - 3].data && posted[i] == FrameRecv(|sent[i]|, ne[i - 3].kind)
    {
      assert sent[i] == pl[i - 3];
      assert posted[i] == ps[i - 3];
    }
  }

  /** The reader's caller gets back the header blob and the serializer's frames. */
  lemma TransferRecoversObject(header: Bytes, body: seq<Frame>, end: End)
    requires Representable(FrameList(header, body))
    ensures var r := Read(Stream(Write(header, body).sent, end));
      && r.outcome.Success?
      && Unpack(r.outcome.value.frames) == Success((header, body))
  {
    RoundTrip(header, body, end);
    UnpackFrameList(header, body);
  }

  /** A receive on a strict prefix of the payloads fails on the first missing one. */
  lemma {:induction false} ReadFramesCut(frames: seq<Frame>, j: nat, end: End)
    requires j < |Payloads(frames)|
    ensures ReadFrames(Flags(frames), Sizes(frames), Stream(Payloads(frames)[..j], end)).outcome
         == Failure(Passed(EndError(end)))
  {
    var f := frames[0];
    var s := Stream(Payloads(frames)[..j], end);
    assert Flags(frames)[1..] == Flags(frames[1..]);
    assert Sizes(frames)[1..] == Sizes(frames[1..]);
    if NBytes(f) > 0 {
      if j > 0 {
        assert Payloads(frames)[..j][1..] == Payloads(frames[1..])[..j - 1];
        ReadFramesCut(frames[1..], j - 1, end);
      }
    } else {
      ReadFramesCut(frames[1..], j, end);
    }
  }

  /**
   * The endpoint ends after the first `k` messages. Cut inside the preamble,
   * the read fails before posting any frame receive, tagged as aborted when
   * the endpoint was canceled or closed; cut inside the payloads, the
   * transport error is passed on untagged.
   */
  lemma Interrupted(header: Bytes, body: seq<Frame>, k: nat, end: End)
    requires Representable(FrameList(header, body))
    requires k < |Write(header, body).sent|
    ensures var r := Read(Stream(Write(header, body).sent[..k], end));
      && r.outcome.Failure?
      && r.outcome.error.cause == EndError(end)
      && (k < 3 ==> r.outcome.error == PreambleFailure(EndError(end)) && |r.posted| == k + 1)
      && (k < 3 && end != Open ==> r.outcome.error.Aborted?)
      && (k >= 3 ==> r.outcome.error.Passed?)
  {
    if k < 3 {
      InterruptedInPreamble(header, body, k, end);
    } else {
      InterruptedInPayloads(header, body, k, end);
    }
  }

  lemma InterruptedInPreamble(header: Bytes, body: seq<Frame>, k: nat, end: End)
    requires Representable(FrameList(header, body))
    requires k < 3
    ensures var r := Read(Stream(Write(header, body).sent[..k], end));
      && r.outcome == Failure(PreambleFailure(EndError(end)))
      && |r.posted| == k + 1
  {
    WriteSends(header, body);
    CountDecodes(|FrameList(header, body)|);
  }

  lemma InterruptedInPayloads(header: Bytes, body: seq<Frame>, k: nat, end: End)
    requires Representable(FrameList(header, body))
    requires 3 <= k < |Write(header, body).sent|
    ensures Read(Stream(Write(header, body).sent[..k], end)).outcome == Failure(Passed(EndError(end)))
  {
    var frames := FrameList(header, body);
    var sent := Write(header, body).sent;
    var s := Stream(sent[..k], end);
    WriteSends(header, body);
    CountDecodes(|frames|);
    assert HasPreamble(s);
    assert Announced(s) == Preamble(Flags(frames), Sizes(frames));
    assert s.queue[3..] == Payloads(frames)[..k - 3];
    ReadFramesCut(frames, k - 3, end);
  }

  /** The messages of a finished write, spelled out. */
  lemma WriteSends(header: Bytes, body: seq<Frame>)
    requires Representable(FrameList(header, body))
    ensures var frames := FrameList(header, body);
      Write(header, body).sent
        == [CountMessage(|frames|), FlagMessage(frames), SizeMessage(frames)] + Payloads(frames)
  {
  }

  /** The count message decodes, as a single `uint64`, to the count. */
  lemma CountDecodes(n: nat)
    requires n < U64_LIMIT
    ensures DecodeU64(CountMessage(n)) == n
  {
    var m := CountMessage(n);
    assert DecodeU64s(m) == [DecodeU64(m[..U64_WIDTH])];
    assert m[..U64_WIDTH] == m;
  }

  /** The flags, sizes and payloads of the frame list of the scenario below. */
  lemma ScenarioFrames(header: Bytes, data: Bytes)
    requires |header| == 11 && |data| == 2048
    ensures var frames := FrameList(header, [Frame([], Host), Frame(data, Host)]);
      && Representable(frames)
      && |frames| == 3
      && Flags(frames) == [false, false, false]
      && Sizes(frames) == [11, 0, 2048]
      && Payloads(frames) == [header, data]
  {
    var body := [Frame([], Host), Frame(data, Host)];
    var frames := FrameList(header, body);
    assert frames == [Frame(header, Host), Frame([], Host), Frame(data, Host)];
    assert frames[1..] == body;
    assert body[1..] == [Frame(data, Host)];
    assert [Frame(data, Host)][1..] == [];
    assert Payloads([Frame(data, Host)]) == [data] + Payloads([]);
    assert Payloads(body) == [data];
  }

  /**
   * A header of 11 bytes and two host frames of 0 and 2048 bytes: three
   * preamble messages, then the header and the 2048-byte frame only.
   */
  lemma SkipsEmptyFrame(header: Bytes, data: Bytes)
    requires |header| == 11 && |data| == 2048
    ensures var sent := Write(header, [Frame([], Host), Frame(data, Host)]).sent;
      && |sent| == 5
      && DecodeU64(sent[0]) == 3
      && DecodeFlags(sent[1]) == [false, false, false]
      && DecodeU64s(sent[2]) == [11, 0, 2048]
      && sent[3] == header && sent[4] == data
  {
    var body := [Frame([], Host), Frame(data, Host)];
    ScenarioFrames(header, data);
    WriteSends(header, body);
    CountDecodes(3);
  }
}

=== FILE: reader.dfy ===
/**
 * The reading half of the transfer (`UCX.read`): receive the preamble,
 * then allocate and fill (or synthesise) every frame it announces.
 */
module Reader {
  import opened Results
  import opened Bytes
  import opened Frames
  import opened Transport

  /** A receive the reader posts, with the size of the buffer it allocated. */
  datatype Posted =
    | PreambleRecv(size: nat)                // a host numpy array of the preamble
    | FrameRecv(size: nat, kind: MemoryKind) // a frame buffer of the flagged memory kind

  /** The decoded preamble: one flag and one size per frame. */
  datatype Preamble = Preamble(flags: seq<bool>, sizes: seq<nat>)

  /** How a read fails. */
  datatype ReadError =
    | Aborted(cause: TransportError)   // canceled or closed while the preamble was in flight
    | Passed(cause: TransportError) // any other failure, passed on unchanged

  datatype Received = Received(frames: seq<Frame>, rest: Stream)

  /** The receives a read posted, in order, and what it returned. */
  datatype Reading = Reading(posted: seq<Posted>, outcome: Result<Received, ReadError>)

  datatype PreambleReading = PreambleReading(posted: seq<Posted>, outcome: Result<(Preamble, Stream), TransportError>)

  /**
   * The stream begins with a well-sized preamble: an 8-byte count `n`, then
   * a message of `n` flag bytes, then a message of `n` 8-byte sizes.
   */
  predicate HasPreamble(s: Stream) {
    && |s.queue| >= 3
    && |s.queue[0]| == U64_WIDTH
    && |s.queue[1]| == DecodeU64(s.queue[0])
    && |s.queue[2]| == U64_WIDTH * DecodeU64(s.queue[0])
  }

  /** The flags and sizes such a preamble announces. */
  function Announced(s: Stream): (p: Preamble)
    requires HasPreamble(s)
    ensures |p.flags| == |p.sizes| == DecodeU64(s.queue[0])
  {
    Preamble(DecodeFlags(s.queue[1]), DecodeU64s(s.queue[2]))
  }

  /**
   * Receive the count into one `uint64`, then the flags into `count` bools,
   * then the sizes into `count` `uint64`s.
   */
  function ReadPreamble(s: Stream): (r: PreambleReading)
    ensures 1 <= |r.posted| <= 3
    ensures forall i :: 0 <= i < |r.posted| ==> r.posted[i].PreambleRecv?
    ensures r.posted[0].size == U64_WIDTH
    ensures r.outcome.Success? <==> HasPreamble(s)
    ensures r.outcome.Success? ==>
      && var n := DecodeU64(s.queue[0]);
      && r.posted == [PreambleRecv(U64_WIDTH), PreambleRecv(n), PreambleRecv(U64_WIDTH * n)]
      && r.outcome.value == (Announced(s), Stream(s.queue[3..], s.end))
  {
    match Recv(s, U64_WIDTH)
    case Failure(e) => PreambleReading([PreambleRecv(U64_WIDTH)], Failure(e))
    case Success(d0) =>
      var n := DecodeU64(d0.msg);
      var posted1 := [PreambleRecv(U64_WIDTH), PreambleRecv(n)];
      match Recv(d0.rest, n)
      case Failure(e) => PreambleReading(posted1, Failure(e))
      case Success(d1) =>
        var posted2 := posted1 + [PreambleRecv(U64_WIDTH * n)];
        match Recv(d1.rest, U64_WIDTH * n)
        case Failure(e) => PreambleReading(posted2, Failure(e))
        case Success(d2) =>
          assert s.queue[3..] == d2.rest.queue;
          PreambleReading(posted2, Success((Preamble(DecodeFlags(d1.msg), DecodeU64s(d2.msg)), d2.rest)))
  }

  /** The receive posted for a frame, if any. */
  function FrameRecvs(flags: seq<bool>, sizes: seq<nat>): (ps: seq<Posted>)
    requires |flags| == |sizes|
    ensures |ps| <= |sizes|
    ensures forall j :: 0 <= j < |ps| ==> ps[j].FrameRecv? && ps[j].size > 0
  {
    if |sizes| == 0 then []
    else if sizes[0] > 0 then [FrameRecv(sizes[0], KindOf(flags[0]))] + FrameRecvs(flags[1..], sizes[1..])
    else FrameRecvs(flags[1..], sizes[1..])
  }

  /**
   * Materialise the frames the preamble announces, in order: a frame of
   * size 0 is synthesised empty without a receive; any other is received
   * into a buffer of exactly its size and flagged memory kind.
   */
  function ReadFrames(flags: seq<bool>, sizes: seq<nat>, s: Stream): (r: Reading)
    requires |flags| == |sizes|
    ensures forall j :: 0 <= j < |r.posted| ==> r.posted[j].FrameRecv?
    ensures r.outcome.Failure? ==> r.outcome.error.Passed?
    ensures r.posted <= FrameRecvs(flags, sizes)
    ensures r.outcome.Success? ==> |r.outcome.value.frames| == |sizes|
    decreases |sizes|
  {
    if |sizes| == 0 then Reading([], Success(Received([], s)))
    else
      var kind := KindOf(flags[0]);
      if sizes[0] > 0 then
        var post := FrameRecv(sizes[0], kind);
        match Recv(s, sizes[0])
        case Failure(e) => Reading([post], Failure(Passed(e)))
        case Success(d) =>
          var tail := ReadFrames(flags[1..], sizes[1..], d.rest);
          match tail.outcome
          case Failure(e) => Reading([post] + tail.posted, Failure(e))
          case Success(rc) => Reading([post] + tail.posted, Success(Received([Frame(d.msg, kind)] + rc.frames, rc.rest)))
      else
        var tail := ReadFrames(flags[1..], sizes[1..], s);
        match tail.outcome
        case Failure(e) => Reading(tail.posted, Failure(e))
        case Success(rc) => Reading(tail.posted, Success(Received([Frame([], kind)] + rc.frames, rc.rest)))
  }

  /**
   * A successful frame loop returns one frame per announced size, in order,
   * each of the flagged memory kind and the announced byte count; it posts
   * receives exactly for the non-zero sizes, and the non-empty frames'
   * bytes are the messages it consumed, in order.
   */
  lemma {:induction false} ReadFramesResult(flags: seq<bool>, sizes: seq<nat>, s: Stream)
    requires |flags| == |sizes|
    ensures var r := ReadFrames(flags, sizes, s);
      r.outcome.Success? ==>
        && r.posted == FrameRecvs(flags, sizes)
        && |r.outcome.value.frames| == |sizes|
        && (forall i :: 0 <= i < |sizes| ==>
              && r.outcome.value.frames[i].kind == KindOf(flags[i])
              && NBytes(r.outcome.value.frames[i]) == sizes[i])
        && |r.posted| <= |s.queue|
        && Payloads(r.outcome.value.frames) == s.queue[..|r.posted|]
        && r.outcome.value.rest == Stream(s.queue[|r.posted|..], s.end)
    decreases |sizes|
  {
    var r := ReadFrames(flags, sizes, s);
    if |sizes| > 0 && r.outcome.Success? {
      var kind := KindOf(flags[0]);
      if sizes[0] > 0 {
        var d := Recv(s, sizes[0]).value;
        var tail := ReadFrames(flags[1..], sizes[1..], d.rest);
        ReadFramesResult(flags[1..], sizes[1..], d.rest);
        var rc := tail.outcome.value;
        var frames := [Frame(d.msg, kind)] + rc.frames;
        assert r == Reading([FrameRecv(sizes[0], kind)] + tail.posted, Success(Received(frames, rc.rest)));
        assert s.queue[|r.posted|..] == d.rest.queue[|tail.posted|..];
        assert s.queue[..|r.posted|] == [d.msg] + d.rest.queue[..|tail.posted|];
        assert frames[1..] == rc.frames;
        assert Payloads(frames) == [d.msg] + Payloads(rc.frames);
        assert forall i :: 1 <= i < |frames| ==> frames[i] == rc.frames[i - 1];
      } else {
        var tail := ReadFrames(flags[1..], sizes[1..], s);
        ReadFramesResult(flags[1..], sizes[1..], s);
        var rc := tail.outcome.value;
        var frames := [Frame([], kind)] + rc.frames;
        assert r == Reading(tail.posted, Success(Received(frames, rc.rest)));
        assert frames[1..] == rc.frames;
        assert Payloads(frames) == Payloads(rc.frames);
        assert forall i :: 1 <= i < |frames| ==> frames[i] == rc.frames[i - 1];
      }
    }
  }

  /** A preamble failure is re-tagged when the endpoint was canceled or closed. */
  function PreambleFailure(e: TransportError): (r: ReadError)
    ensures r.cause == e
    ensures r.Aborted? <==> e == CanceledError || e == ClosedError
  {
    if e == CanceledError || e == ClosedError then Aborted(e) else Passed(e)
  }

  /** `UCX.read`: the whole read of one transfer. */
  function Read(s: Stream): (r: Reading)
    ensures forall i :: 0 <= i < |r.posted| ==> (r.posted[i].FrameRecv? <==> i >= 3)
    ensures !HasPreamble(s) ==> r.outcome.Failure? && |r.posted| <= 3
    ensures r.outcome.Failure? && r.outcome.error.Aborted? ==>
      && |r.posted| <= 3
      && (r.outcome.error.cause == CanceledError || r.outcome.error.cause == ClosedError)
    ensures HasPreamble(s) ==>
      && var n := DecodeU64(s.queue[0]);
      && |r.posted| >= 3
      && r.posted[..3] == [PreambleRecv(U64_WIDTH), PreambleRecv(n), PreambleRecv(U64_WIDTH * n)]
      && r.posted[3..] <= FrameRecvs(Announced(s).flags, Announced(s).sizes)
    ensures r.outcome.Success? ==>
      && HasPreamble(s)
      && var n := DecodeU64(s.queue[0]);
      && |r.posted| >= 3
      && r.posted[..3] == [PreambleRecv(U64_WIDTH), PreambleRecv(n), PreambleRecv(U64_WIDTH * n)]
      && |r.outcome.value.frames| == n
  {
    var pre := ReadPreamble(s);
    match pre.outcome
    case Failure(e) => Reading(pre.posted, Failure(PreambleFailure(e)))
    case Success((p, rest)) =>
      var body := ReadFrames(p.flags, p.sizes, rest);
      Reading(pre.posted + body.posted, body.outcome)
  }

  /**
   * A successful read follows the received preamble: frame i has the
   * memory kind of flag i and the byte count of size i, the non-empty
   * frames' bytes are the messages received after the preamble, in order,
   * and nothing after them is consumed.
   */
  lemma ReadFollowsPreamble(s: Stream)
    ensures var r := Read(s);
      r.outcome.Success? ==>
        && HasPreamble(s)
        && var announced := Announced(s);
        && |r.outcome.value.frames| == |announced.sizes|
        && (forall i :: 0 <= i < |announced.sizes| ==>
              && r.outcome.value.frames[i].kind == KindOf(announced.flags[i])
              && NBytes(r.outcome.value.frames[i]) == announced.sizes[i])
        && 3 <= |r.posted| <= |s.queue|
        && r.posted[3..] == FrameRecvs(announced.flags, announced.sizes)
        && Payloads(r.outcome.value.frames) == s.queue[3..|r.posted|]
        && r.outcome.value.rest == Stream(s.queue[|r.posted|..], s.end)
  {
    var pre := ReadPreamble(s);
    if pre.outcome.Success? {
      var (p, rest) := pre.outcome.value;
      ReadFramesResult(p.flags, p.sizes, rest);
    }
  }
}

=== FILE: results.dfy ===
/** Failure-carrying datatypes used by the frame transfer model. */
module Results {

  /** Either a value or an error. */
  datatype Result<+T, +E> = Success(value: T) | Failure(error: E)

  /** Pass or fail, with no value on success. */
  datatype Outcome<+E> = Pass | Fail(error: E)
}

=== FILE: transport.dfy ===
/**
 * The endpoint as the protocol sees it: an ordered queue of messages from
 * the writer to the reader, followed by the state the endpoint ends in.
 * Each `send` puts one message on the queue; each `recv` posts a buffer of
 * a fixed size and is completed by the message at the head of the queue.
 */
module Transport {
  import opened Results
  import opened Bytes

  /** What the endpoint does once every queued message has been received. */
  datatype End =
    | Open      // still connected: a further receive waits for a message that never comes
    | Closed    // the peer closed the endpoint
    | Canceled  // the outstanding operation was canceled

  datatype Stream = Stream(queue: seq<Bytes>, end: End)

  datatype TransportError =
    | CanceledError                       // the endpoint was canceled
    | ClosedError                         // the endpoint was closed
    | Truncated(expected: nat, got: nat)  // the message does not fit the posted buffer exactly
    | Stalled                             // no message arrives: the receive never completes

  /** A completed receive: the message and the stream left behind. */
  datatype Delivered = Delivered(msg: Bytes, rest: Stream)

  /** The error a receive on an exhausted stream reports. */
  function EndError(end: End): (e: TransportError)
    ensures e == CanceledError <==> end == Canceled
    ensures e == ClosedError <==> end == Closed
    ensures e == Stalled <==> end == Open
  {
    match end
    case Open => Stalled
    case Closed => ClosedError
    case Canceled => CanceledError
  }

  /** Receive into a freshly allocated buffer of `size` bytes. */
  function Recv(s: Stream, size: nat): (r: Result<Delivered, TransportError>)
    ensures r.Success? <==> |s.queue| > 0 && |s.queue[0]| == size
    ensures r.Success? ==> |r.value.msg| == size
    ensures r.Success? ==> [r.value.msg] + r.value.rest.queue == s.queue
    ensures r.Success? ==> r.value.rest.end == s.end
    ensures |s.queue| == 0 ==> r == Failure(EndError(s.end))
    ensures |s.queue| > 0 && r.Failure? ==> r.error == Truncated(size, |s.queue[0]|)
  {
    if |s.queue| == 0 then Failure(EndError(s.end))
    else if |s.queue[0]| != size then Failure(Truncated(size, |s.queue[0]|))
    else Success(Delivered(s.queue[0], Stream(s.queue[1..], s.end)))
  }
}

=== FILE: writer.dfy ===
/**
 * The writing half of the transfer (`UCX.write`): the preamble describing
 * every frame, then the bytes of every non-empty frame.
 */
module Writer {
  import opened Results
  import opened Bytes
  import opened Frames

  /** numpy refuses to store a value of 2^64 or more in a `uint64` array. */
  datatype WriteError = Overflow

  /** The messages sent, in order, and whether the writer finished. */
  datatype Transmission = Transmission(sent: seq<Bytes>, status: Outcome<WriteError>)

  /** The count message: a one-element `uint64` array. */
  function CountMessage(n: nat): (m: Bytes)
    requires n < U64_LIMIT
    ensures |m| == U64_WIDTH && DecodeU64s(m) == [n]
  {
    U64sRoundTrip([n]);
    EncodeU64s([n])
  }

  /** The flag message: one `bool` per frame, true for device frames. */
  function FlagMessage(frames: seq<Frame>): (m: Bytes)
    ensures |m| == |frames|
    ensures DecodeFlags(m) == Flags(frames)
  {
    FlagsRoundTrip(Flags(frames));
    EncodeFlags(Flags(frames))
  }

  /** The size message: one `uint64` per frame. */
  function SizeMessage(frames: seq<Frame>): (m: Bytes)
    requires Representable(frames)
    ensures |m| == U64_WIDTH * |frames|
    ensures DecodeU64s(m) == Sizes(frames)
  {
    U64sRoundTrip(Sizes(frames));
    EncodeU64s(Sizes(frames))
  }

  /**
   * Send `header` (as frame 0) and `body`. The count is converted before
   * the first send and the sizes before the third, so an unrepresentable
   * size leaves the first two messages already sent.
   */
  function Write(header: Bytes, body: seq<Frame>): (w: Transmission)
    ensures w.status == Pass <==> Representable(FrameList(header, body))
    ensures var frames := FrameList(header, body);
      w.status == Pass ==>
        && |w.sent| == 3 + NonEmptyCount(frames)
        && |w.sent[0]| == U64_WIDTH && DecodeU64s(w.sent[0]) == [|frames|]
        && DecodeFlags(w.sent[1]) == Flags(frames)
        && |w.sent[2]| % U64_WIDTH == 0
        && DecodeU64s(w.sent[2]) == Sizes(frames)
        && w.sent[3..] == Payloads(frames)
    ensures w.status == Pass ==> forall i :: 3 <= i < |w.sent| ==> |w.sent[i]| > 0
    ensures w.status != Pass ==> |w.sent| <= 2
    ensures var frames := FrameList(header, body);
      w.status != Pass && |frames| < U64_LIMIT ==>
        w.sent == [CountMessage(|frames|), FlagMessage(frames)]
    ensures w.status != Pass && |FrameList(header, body)| >= U64_LIMIT ==> w.sent == []
  {
    var frames := FrameList(header, body);
    if |frames| >= U64_LIMIT then
      Transmission([], Fail(Overflow))
    else
      var preamble := [CountMessage(|frames|), FlagMessage(frames)];
      if !Representable(frames) then
        Transmission(preamble, Fail(Overflow))
      else
        PayloadsCount(frames);
        var sent := preamble + [SizeMessage(frames)] + Payloads(frames);
        assert sent[3..] == Payloads(frames);
        Transmission(sent, Pass)
  }
}
